=== FILE: README.md ===
# UnityEventDrawerCallback: a Dafny model of its decision rules

`UnityEventDrawerCallback` is an editor extension that replaces how the
inspector draws the persistent listeners of a `UnityEvent`. Nearly all of it is
drawing code and reflection into the host drawer's private members. Three
pure decision rules are embedded in that code, and this project models them and
proves what they promise:

1. **The listener row** (`DrawEvent`). This rule picks the effective call mode.
   The stored `PersistentListenerMode` is replaced by `Void` when the listener
   has no target or no method name. The mode then picks the argument-cache field
   that is edited (`m_FloatArgument`, `m_IntArgument`, …). It also picks the kind
   of argument editor: none, an object picker restricted to the desired type, or
   a plain property field. Module `ListenerRow`.
2. **The function button's text** (`DrawEvent`). The button shows one of three
   texts:
   - "No Function";
   - "<Missing T.M>" when the host no longer finds the method;
   - "T.M", where a property setter loses its `set_` prefix.

   The button is greyed out without a target. When several differing objects
   are edited at once, it shows the mixed-value dash instead. Any assignment
   to the target field clears the method name. Module `ListenerRow`.
3. **The function menu** (`BuildPopupList`). The menu starts with a "No
   Function" item. It then has one block for the target. For a game object it
   also has one block per component and one per engine object held in a
   component's public fields.

   Components whose short type names clash are labelled by their full type
   name. A running index is appended to the full name, as in "Ns.T (1)", from
   the second component of that full name on. The naming uses two passes and two
   dictionaries. The first pass is `CountPass` over a `map`. The second pass is
   `NameStep`/`NamePass`, whose state holds the full-name `map`. Module
   `PopupMenu`.

Supporting modules:
- `Host` holds the engine object model: a type's `Name` and `FullName`, object references with their instance ids, components, field values and the menu's root object.
- `Text` holds prefixes and the decimal rendering of an index.
- `Counting` holds occurrence counts over a sequence.
- `Runs` holds sequences laid end to end, with where each piece lands.

The main results are about component naming.
- The two dictionary passes produce a reference labelling (`RefLabel`). In that
  labelling, a component whose short name is used once and differs from the
  root's type name keeps it. Otherwise the
  component gets its full name when it is the first of that full name, and
  "FullName (k)" when k components of that full name came before it.
  `ComponentLabelsMatchReference` proves the passes match it.
- Under that labelling, no two components of a game object get the same label
  (`ComponentLabelsDistinct`).
- Both results need the shape runtime type names have (`WellFormedTypes`):
  - names contain no spaces;
  - a full name determines the short name;
  - a short name equals a full name only for a type outside any namespace.
- The first pass seeds the dictionary with the root's own type name. As a
  result, a component never takes the root entry's label, as long as no
  component type's full name is the root's short name
  (`ComponentLabelNotRoot`). A component class named `GameObject` in the global
  namespace would break that condition and share the root entry's label.

Outside inputs are parameters of the model:
- the host's method-validity check (`Validity`);
- runtime type lookup by name (`TypeResolver`);
- whether the editor is showing mixed values;
- what the target field's change check reports for the current frame;
- the components of a game object, with the values of their public fields.

## Model

| member | source | states |
|---|---|---|
| ListenerRow.EffectiveMode | Editor/Scripts/UnityEventDrawerCallback.cs:74-77 | Without a target or with an empty method name the row works in `Void` mode, whatever mode is stored; otherwise the stored mode is kept |
| ListenerRow.SlotFor | Editor/Scripts/UnityEventDrawerCallback.cs:79-99 | Each argument-carrying mode (Float, Int, Object, String, Bool) edits the cache field that holds that mode's argument; every other mode falls back to `m_IntArgument` |
| ListenerRow.SlotForSlotMode | Editor/Scripts/UnityEventDrawerCallback.cs:79-99 | Every argument-cache field is the one selected for its own mode, so the mode-to-field choice is one-to-one on argument-carrying modes |
| ListenerRow.SlotPathForMode | Editor/Scripts/UnityEventDrawerCallback.cs:30-34 | Each argument-carrying mode edits the serialized field named after it (`m_FloatArgument`, `m_IntArgument`, `m_ObjectArgument`, `m_StringArgument`, `m_BoolArgument`), and every other mode edits `m_IntArgument` |
| ListenerRow.DesiredType | Editor/Scripts/UnityEventDrawerCallback.cs:101-104 | The object argument's type is the recorded type when it is non-empty and resolves, and `UnityEngine.Object` otherwise |
| ListenerRow.ArgumentEditorFor | Editor/Scripts/UnityEventDrawerCallback.cs:106-114 | No editor exactly when the effective mode is `Void` or `EventDefined`; an object picker on `m_ObjectArgument` with the desired type exactly when it is `Object`; otherwise a property field on the field that holds the mode's argument |
| ListenerRow.EditorNeedsFunction | Editor/Scripts/UnityEventDrawerCallback.cs:74-114 | An argument editor is drawn only for a listener with a target and a method name whose stored mode carries an argument |
| ListenerRow.EditTarget | Editor/Scripts/UnityEventDrawerCallback.cs:64-70 | When the change check reports an assignment to the target field (another object, an object of the same type, or the same object again) the target becomes the assigned object and the method name is cleared; without an assignment the listener is unchanged; mode and argument type are always kept |
| ListenerRow.RetargetShowsNoFunction | Editor/Scripts/UnityEventDrawerCallback.cs:64-77 | After any assignment to the target field the row is in `Void` mode, shows "No Function" and draws no argument editor, whatever mode was stored |
| ListenerRow.StripSetter | Editor/Scripts/UnityEventDrawerCallback.cs:149-152 | A method name starting with `set_` loses exactly those four characters; any other name is kept as is |
| ListenerRow.FunctionLabel | Editor/Scripts/UnityEventDrawerCallback.cs:128-153 | "No Function" without a target or method; "<Missing T.M>" with the unaltered method name when the host rejects the method; "T." followed by the setter-stripped name when it accepts it |
| ListenerRow.NoFunctionLabelIff | Editor/Scripts/UnityEventDrawerCallback.cs:129-153 | The button says "No Function" if and only if the listener lacks a target or a method name |
| ListenerRow.MissingNeverFound | Editor/Scripts/UnityEventDrawerCallback.cs:133-153 | A "<Missing …>" text can never be mistaken for a found method's text when the type name does not begin with '<' |
| ListenerRow.SetterSharesPlainLabel | Editor/Scripts/UnityEventDrawerCallback.cs:144-153 | A setter `set_X` and a method `X` on one type show the same text, and only one `set_` is stripped |
| ListenerRow.FunctionButtonFor | Editor/Scripts/UnityEventDrawerCallback.cs:116-161 | The function button is enabled exactly when there is a target object, shows the mixed-value content when editing differing objects, and the function text otherwise |
| ListenerRow.ButtonShowsNoFunctionIff | Editor/Scripts/UnityEventDrawerCallback.cs:116-131 | Outside the mixed-value case the button reads "No Function" if and only if it is greyed out (no target) or the method name is empty |
| Text.NatToStringInjective | Editor/Scripts/UnityEventDrawerCallback.cs:245 | Distinct indices are written as distinct decimal texts |
| PopupMenu.CountPass | Editor/Scripts/UnityEventDrawerCallback.cs:212-230 | The short-name dictionary holds the root's name and every component name; a component's name is marked as clashing exactly when it occurs at least twice or is the root's name |
| PopupMenu.NamePass | Editor/Scripts/UnityEventDrawerCallback.cs:232-250 | One label per component; a component whose name is not marked keeps its short name; a marked one gets its full name, possibly followed by " (k)" with k at least 1 |
| PopupMenu.ComponentLabels | Editor/Scripts/UnityEventDrawerCallback.cs:212-250 | The same shapes, stated against actual occurrence counts: a unique, non-root short name is kept; a clashing one gives way to the full name, possibly indexed |
| PopupMenu.NameStep | Editor/Scripts/UnityEventDrawerCallback.cs:237-250 | Labelling one component appends exactly one label and keeps every earlier label |
| PopupMenu.NameStepCounters | Editor/Scripts/UnityEventDrawerCallback.cs:250 | A step records the component's full name with a counter of at least 1 and leaves every other full name's counter as it was |
| PopupMenu.NameStepKeepsInvariant | Editor/Scripts/UnityEventDrawerCallback.cs:237-250 | One step of the second pass keeps the full-name counter equal to the number of components of each full name seen so far and extends the labels by the reference label |
| PopupMenu.NamePassInvariant | Editor/Scripts/UnityEventDrawerCallback.cs:232-250 | After any number of components, the full-name counter equals the occurrence counts and every label given equals the reference label |
| PopupMenu.ComponentLabelsMatchReference | Editor/Scripts/UnityEventDrawerCallback.cs:212-250 | When a full name determines the short name, the k-th component of a clashing full name is labelled FullName for k = 1 and "FullName (k-1)" after that, and a unique short name is kept |
| PopupMenu.IndexedInjective | Editor/Scripts/UnityEventDrawerCallback.cs:245 | An indexed label "F (k)" determines both its full name and its index when full names have no spaces |
| PopupMenu.RefLabelsDistinct | Editor/Scripts/UnityEventDrawerCallback.cs:241-248 | The reference labelling gives different components different labels for well-formed type names |
| PopupMenu.ComponentLabelsDistinct | Editor/Scripts/UnityEventDrawerCallback.cs:212-250 | The menu labels of a game object's components are pairwise distinct for well-formed type names, whether their full names are equal or not |
| PopupMenu.ComponentLabelNotRoot | Editor/Scripts/UnityEventDrawerCallback.cs:217-248 | Seeding the root's name keeps every component label different from the root entry's label, provided no component's full name equals the root's short name |
| PopupMenu.FieldEntries | Editor/Scripts/UnityEventDrawerCallback.cs:252-273 | Every field holding a live engine object yields a block, every block is titled "<component label> -  <object type's full name>" for the type it opens, and every block comes from such a field; other fields add nothing |
| PopupMenu.FieldEntriesCount | Editor/Scripts/UnityEventDrawerCallback.cs:254-273 | For each object type, the number of field blocks for it equals the number of fields holding a live object of that type: one block per field |
| PopupMenu.ComponentEntries | Editor/Scripts/UnityEventDrawerCallback.cs:232-276 | Each component contributes its block under its own label and all of its field blocks, and every entry is a type block |
| PopupMenu.ComponentEntriesOnly | Editor/Scripts/UnityEventDrawerCallback.cs:232-276 | Nothing else is listed: every entry is some component's block or one of that component's field blocks |
| PopupMenu.ComponentEntriesInOrder | Editor/Scripts/UnityEventDrawerCallback.cs:232-276 | The list is exactly the components' stretches concatenated in component order, each stretch being the component's block directly followed by its field blocks |
| PopupMenu.ComponentStretchAt | Editor/Scripts/UnityEventDrawerCallback.cs:249-273 | Component i's block sits at the total length of the earlier stretches, and its k-th field block sits k places after it |
| PopupMenu.GameObjectEntries | Editor/Scripts/UnityEventDrawerCallback.cs:219-276 | Everything listed for a game object's components is a type block; the components are named by the two-pass naming scheme |
| PopupMenu.GameObjectEntriesListComponents | Editor/Scripts/UnityEventDrawerCallback.cs:219-276 | Every component of a game object has a block in the list under the label the naming scheme gives it, together with all of its field blocks |
| PopupMenu.TargetEntries | Editor/Scripts/UnityEventDrawerCallback.cs:199-219 | Without a target nothing follows the first item; with one, a separator and the target's own block under its short type name come next; for an object that is not a game object those two entries are all |
| PopupMenu.BuildPopupList | Editor/Scripts/UnityEventDrawerCallback.cs:170-278 | The menu opens with the only "No Function" item; it is the whole menu exactly when there is no target; then come a separator and the target's block; for a game object every component's block follows, and for any other object the menu is exactly those three entries |
| PopupMenu.GameObjectPopupList | Editor/Scripts/UnityEventDrawerCallback.cs:170-276 | The menu of a game object is the "No Function" item, the separator and the game object's block, followed by the component blocks |
| PopupMenu.GameObjectMenu | Editor/Scripts/UnityEventDrawerCallback.cs:170-276 | For a game object the menu holds every component's block under its label and every field block of every component, and nothing besides these and the three leading entries |

## Left out

- All IMGUI drawing is out of scope: rects, colours, `GUI.Box`, the call-state field, `DisabledScope` beyond the enabled flag, `DropdownButton` and `DropDown`. It has no statable semantics.
- Reflection into the host drawer is abstracted. This covers `m_DummyEvent`, `m_ListenersArray`, `GetRowRects`, `GetMode`, `ClearEventFunction`, the nested `UnityEventFunction`, `GUIContent.Temp` and `mixedValueContent`. The stored mode is given as a `Mode` value, so out-of-range mode integers are not modelled.
- `IsPersistantListenerValid` is a `Validity` parameter, because its body belongs to the host. It receives the target object.
- `GeneratePopUpForType` is a `TypePopup` entry holding its title and object type, because its body belongs to the host. The delegate argument types it receives (lines 206-210) are not modelled.
- `Type.GetType` is a `TypeResolver` parameter returning an option.
- Field enumeration by reflection is replaced by a given sequence of `FieldValue`s. This covers the `IsAssignableFrom` filter, the `GetValue` exception caught with `Debug.Log`, and null values.
- Null components are not modelled. The first counting loop would dereference them, while the second loop skips them.
- The replacement of a component target by its game object (lines 173-175) is left to the caller. `BuildPopupList` receives the resulting `Root`.
- A null method name is modelled as the empty string. Both are treated alike by `IsNullOrEmpty`, which is the only test the code applies before using the name.
- The "UnknownComponent" fallback (lines 135-138) is not modelled. It is unreachable, because the target is known to be non-null in that branch.
- The write-back of a picked object argument (lines 110-111) is not modelled, because it is a GUI edit with no decision in it.
- `StartsWith("set_")` is modelled as an ordinal prefix test. The culture-sensitive comparison that .NET uses by default is not modelled.
- `prop.GetType()` in a field block's title is taken to be the type's full name. This is what `Type.ToString()` gives for non-generic types.
- PopupMenu.FieldEntries: states which blocks appear and how often, but not their order (field declaration order).
- PopupMenu.ComponentEntries: its own contract states which blocks appear. That nothing else appears is stated by `PopupMenu.ComponentEntriesOnly`; the order and positions are stated by `PopupMenu.ComponentEntriesInOrder` and `PopupMenu.ComponentStretchAt`. These sit in lemmas because, as clauses of the function, they slow the solver down on every proof that mentions it.
- PopupMenu.BuildPopupList: its own contract states the whole menu for no target and for an object that is not a game object; for a game object it states the first three entries and which blocks follow, and the exact list is stated by `PopupMenu.GameObjectPopupList` together with `PopupMenu.ComponentEntriesInOrder`.
- A root of any other kind whose type is `UnityEngine.GameObject` (`OtherObject(GameObjectType)`) does not occur: every object of that type is a game object and takes the `GameObject` branch at line 219. The model does not exclude that value, and would give it a menu without component blocks.
- The editor's change check on the target field (`EndChangeCheck`) is a parameter of `ListenerRow.EditTarget`: whether the user assigned the field this frame, and what.

=== FILE: counting.dfy ===
/**
 Occurrence counts over a sequence, the quantity both of the menu builder's
 dictionaries keep.
 */
module Counting {

  /** Number of positions of `xs` that hold `x`, counted left to right. */
  function Count<T(==)>(xs: seq<T>, x: T): (n: nat)
    ensures n <= |xs|
    ensures n == 0 <==> x !in xs
    decreases |xs|
  {
    if |xs| == 0 then 0
    else
      assert xs == xs[..|xs| - 1] + [xs[|xs| - 1]];
      Count(xs[..|xs| - 1], x) + (if xs[|xs| - 1] == x then 1 else 0)
  }

  /** A copy of `x` at position `i` is counted by every prefix that reaches past it. */
  lemma {:induction false} CountPastOccurrence<T>(xs: seq<T>, i: nat, j: nat, x: T)
    requires i < j <= |xs| && xs[i] == x
    ensures Count(xs[..j], x) >= Count(xs[..i], x) + 1
    decreases j - i
  {
    assert xs[..j][..j - 1] == xs[..j - 1];
    if j > i + 1 {
      CountPastOccurrence(xs, i, j - 1, x);
    }
  }

  /** Two distinct positions holding `x` make it occur at least twice. */
  lemma CountTwoPositions<T>(xs: seq<T>, i: nat, j: nat, x: T)
    requires i < |xs| && j < |xs| && i != j
    requires xs[i] == x && xs[j] == x
    ensures Count(xs, x) >= 2
  {
  }

  /** Counting distributes over concatenation. */
  lemma {:induction false} CountAppend<T>(a: seq<T>, b: seq<T>, x: T)
    ensures Count(a + b, x) == Count(a, x) + Count(b, x)
    decreases |b|
  {
    if |b| == 0 {
      assert a + b == a;
    } else {
      var ab := a + b;
      assert ab[..|ab| - 1] == a + b[..|b| - 1];
      assert ab[|ab| - 1] == b[|b| - 1];
      CountAppend(a, b[..|b| - 1], x);
    }
  }
}

=== FILE: host.dfy ===
/**
 The slice of the engine's object model the inspector code reads: a type's
 short and full names, the components of a game object, and the values of a
 component's public fields.
 */
module Host {

  datatype Option<+T> = None | Some(value: T) {
    function GetOr(default: T): T {
      match this
      case Some(v) => v
      case None => default
    }
  }

  /** A runtime type as reflection reports it: `Type.Name` and `Type.FullName`. */
  datatype TypeInfo = TypeInfo(name: string, fullName: string)

  /**
   A reference to a live engine object: its instance id, which tells objects
   apart, and its runtime type. Two objects of one type are different targets.
   */
  datatype ObjectRef = ObjectRef(instanceId: int, objectType: TypeInfo)

  /** `UnityEngine.Object`, the fallback type of an object argument. */
  const UnityObjectType := TypeInfo("Object", "UnityEngine.Object")

  /** `UnityEngine.GameObject`, the type of a scene object that owns components. */
  const GameObjectType := TypeInfo("GameObject", "UnityEngine.GameObject")

  /**
   What reading one public field of a component yields: a field whose declared
   type is not an engine object, a null reference, a read that throws, or a
   live object of some runtime type.
   */
  datatype FieldValue = NonObjectField | NullObject | Unreadable | ObjectValue(runtimeType: TypeInfo)

  /** A (non-null) component with the values of its public fields, in declaration order. */
  datatype Component = Component(componentType: TypeInfo, fields: seq<FieldValue>)

  /**
   The object a listener's menu is built for, after a component target has
   been replaced by its game object: either a game object with its components
   or any other engine object.
   */
  datatype Root = GameObject(components: seq<Component>) | OtherObject(objectType: TypeInfo) {
    function Type(): TypeInfo {
      match this
      case GameObject(_) => GameObjectType
      case OtherObject(t) => t
    }
  }
}

=== FILE: listener_row.dfy ===
/**
 The decisions `DrawEvent` takes while drawing one persistent listener of an
 event: which call mode is in force, which argument-cache field is edited and
 with what kind of editor, and what the function button says.
 */
module ListenerRow {
  import opened Host
  import opened Text

  /** `PersistentListenerMode`: how a persistent listener passes its argument. */
  datatype Mode = EventDefined | Void | Object | Int | Float | String | Bool

  /** The fields of a listener's argument cache that hold an argument value. */
  datatype ArgumentSlot = FloatArgument | IntArgument | ObjectArgument | StringArgument | BoolArgument

  /** Serialized property name of each argument-cache field. */
  function SlotPath(s: ArgumentSlot): string {
    match s
    case FloatArgument => "m_FloatArgument"
    case IntArgument => "m_IntArgument"
    case ObjectArgument => "m_ObjectArgument"
    case StringArgument => "m_StringArgument"
    case BoolArgument => "m_BoolArgument"
  }

  /** The mode whose argument each cache field holds. */
  function SlotMode(s: ArgumentSlot): Mode {
    match s
    case FloatArgument => Float
    case IntArgument => Int
    case ObjectArgument => Object
    case StringArgument => String
    case BoolArgument => Bool
  }

  /** The modes that carry an argument of their own. */
  predicate CarriesArgument(m: Mode) {
    m in {Object, Int, Float, String, Bool}
  }

  /**
   One serialized persistent listener: its target object (`None` is a null
   reference), its method name (a null name is the empty string), its stored
   mode, and the assembly-qualified type name recorded for an object argument.
   */
  datatype Listener = Listener(
    target: Option<ObjectRef>,
    methodName: string,
    storedMode: Mode,
    objectArgumentTypeName: string)

  /**
   The host's check that the method still exists on the target object with a
   matching signature: method name, target, mode and desired argument type.
   */
  type Validity = (string, ObjectRef, Mode, TypeInfo) -> bool

  /** Runtime lookup of a type by its assembly-qualified name. */
  type TypeResolver = string -> Option<TypeInfo>

  /** A listener names a function when it has a target and a non-empty method name. */
  predicate HasFunction(l: Listener) {
    l.target.Some? && l.methodName != ""
  }

  /** The mode the row works with: the stored one, or `Void` when there is nothing to call. */
  function EffectiveMode(l: Listener): (m: Mode)
    ensures !HasFunction(l) ==> m == Void
    ensures HasFunction(l) ==> m == l.storedMode
  {
    if l.target.None? || l.methodName == "" then Void else l.storedMode
  }

  /** The argument-cache field the row edits for mode `m`. */
  function SlotFor(m: Mode): (s: ArgumentSlot)
    ensures CarriesArgument(m) ==> SlotMode(s) == m
    ensures !CarriesArgument(m) ==> s == IntArgument
  {
    match m
    case Float => FloatArgument
    case Int => IntArgument
    case Object => ObjectArgument
    case String => StringArgument
    case Bool => BoolArgument
    case _ => IntArgument
  }

  /** Every argument-cache field is the one chosen for its own mode. */
  lemma SlotForSlotMode(s: ArgumentSlot)
    ensures CarriesArgument(SlotMode(s))
    ensures SlotFor(SlotMode(s)) == s
  {
  }

  /** The serialized field edited for each mode, by name. */
  lemma SlotPathForMode(m: Mode)
    ensures m == Float ==> SlotPath(SlotFor(m)) == "m_FloatArgument"
    ensures m == Int ==> SlotPath(SlotFor(m)) == "m_IntArgument"
    ensures m == Object ==> SlotPath(SlotFor(m)) == "m_ObjectArgument"
    ensures m == String ==> SlotPath(SlotFor(m)) == "m_StringArgument"
    ensures m == Bool ==> SlotPath(SlotFor(m)) == "m_BoolArgument"
    ensures !CarriesArgument(m) ==> SlotPath(SlotFor(m)) == "m_IntArgument"
  {
  }

  /**
   The type an object argument must have: the recorded type when it names one
   the runtime can find, `UnityEngine.Object` otherwise.
   */
  function DesiredType(typeName: string, resolve: TypeResolver): (t: TypeInfo)
    ensures typeName != "" && resolve(typeName).Some? ==> t == resolve(typeName).value
    ensures typeName == "" || resolve(typeName).None? ==> t == UnityObjectType
  {
    if typeName == "" then UnityObjectType else resolve(typeName).GetOr(UnityObjectType)
  }

  /** The editor drawn in the argument column of the row. */
  datatype ArgumentEditor =
    | NoEditor
    | ObjectField(slot: ArgumentSlot, desiredType: TypeInfo)
    | PropertyField(slot: ArgumentSlot)

  /**
   The argument editor of a listener row: none for `Void` and `EventDefined`,
   an object picker restricted to the desired type for `Object`, and a plain
   property editor on the mode's own cache field otherwise.
   */
  function ArgumentEditorFor(l: Listener, resolve: TypeResolver): (e: ArgumentEditor)
    ensures e.NoEditor? <==> !CarriesArgument(EffectiveMode(l))
    ensures e.ObjectField? <==> EffectiveMode(l) == Object
    ensures e.ObjectField? ==> e.slot == ObjectArgument
    ensures e.ObjectField? ==> e.desiredType == DesiredType(l.objectArgumentTypeName, resolve)
    ensures e.PropertyField? ==> SlotMode(e.slot) == EffectiveMode(l)
  {
    var mode := EffectiveMode(l);
    var slot := SlotFor(mode);
    if mode == Object then ObjectField(slot, DesiredType(l.objectArgumentTypeName, resolve))
    else if mode != Void && mode != EventDefined then PropertyField(slot)
    else NoEditor
  }

  /** Text of the function button when the listener names no function. */
  const NoFunctionLabel := "No Function"

  /** A method name with one leading `set_` (a property setter's prefix) removed. */
  function StripSetter(m: string): (r: string)
    ensures StartsWith(m, "set_") ==> m == "set_" + r
    ensures !StartsWith(m, "set_") ==> r == m
  {
    if StartsWith(m, "set_") then m[4..] else m
  }

  /** Button text for a listener whose method the host no longer finds. */
  function MissingLabel(typeName: string, methodName: string): string {
    "<Missing " + typeName + "." + methodName + ">"
  }

  /** Button text for a listener whose method the host finds. */
  function FoundLabel(typeName: string, methodName: string): string {
    typeName + "." + StripSetter(methodName)
  }

  /**
   The function button's text: "No Function" without a target or method,
   "<Missing T.M>" when the host rejects the method, and "T.M" otherwise with a
   setter's `set_` prefix dropped.
   */
  function FunctionLabel(l: Listener, valid: Validity, resolve: TypeResolver): (s: string)
    ensures !HasFunction(l) ==> s == NoFunctionLabel
    ensures HasFunction(l) && !valid(l.methodName, l.target.value, l.storedMode,
                                     DesiredType(l.objectArgumentTypeName, resolve))
            ==> s == MissingLabel(l.target.value.objectType.name, l.methodName)
    ensures HasFunction(l) && valid(l.methodName, l.target.value, l.storedMode,
                                    DesiredType(l.objectArgumentTypeName, resolve))
            ==> s == FoundLabel(l.target.value.objectType.name, l.methodName)
  {
    if l.target.None? || l.methodName == "" then NoFunctionLabel
    else if !valid(l.methodName, l.target.value, EffectiveMode(l),
                   DesiredType(l.objectArgumentTypeName, resolve))
    then MissingLabel(l.target.value.objectType.name, l.methodName)
    else FoundLabel(l.target.value.objectType.name, l.methodName)
  }

  /** "No Function" is shown exactly when the listener names no function. */
  lemma NoFunctionLabelIff(l: Listener, valid: Validity, resolve: TypeResolver)
    ensures FunctionLabel(l, valid, resolve) == NoFunctionLabel <==> !HasFunction(l)
  {
    if HasFunction(l) {
      var t := l.target.value.objectType.name;
      var s := FunctionLabel(l, valid, resolve);
      if s == MissingLabel(t, l.methodName) {
        assert s[0] == '<';
      } else {
        assert s == t + "." + StripSetter(l.methodName);
        assert s[|t|] == '.';
        assert '.' !in NoFunctionLabel;
      }
    }
  }

  /**
   A "<Missing …>" text is never a found function's text, as long as the
   target's type name does not itself begin with '<'.
   */
  lemma MissingNeverFound(t: string, m: string, m': string)
    requires !StartsWith(t, "<")
    ensures MissingLabel(t, m) != FoundLabel(t, m')
  {
    var found := FoundLabel(t, m');
    assert MissingLabel(t, m)[0] == '<';
    if |t| == 0 {
      assert found[0] == '.';
    } else {
      assert found[0] == t[0];
      assert t[..1] != "<";
    }
  }

  /**
   A property setter and a method named like the property get the same button
   text: only one `set_` is removed, so "set_set_X" still shows "set_X".
   */
  lemma SetterSharesPlainLabel(t: string, m: string)
    requires !StartsWith(m, "set_")
    ensures FoundLabel(t, "set_" + m) == FoundLabel(t, m)
    ensures FoundLabel(t, "set_set_" + m) == t + "." + "set_" + m
  {
    assert ("set_" + m)[..4] == "set_" && ("set_" + m)[4..] == m;
    assert ("set_set_" + m)[..4] == "set_" && ("set_set_" + m)[4..] == "set_" + m;
  }

  /** What the function button shows. */
  datatype ButtonContent = MixedValue | Caption(text: string)

  /** The function button: greyed out without a target, showing the mixed-value dash when editing several objects that differ. */
  datatype FunctionButton = FunctionButton(enabled: bool, content: ButtonContent)

  function FunctionButtonFor(l: Listener, showMixedValue: bool, valid: Validity, resolve: TypeResolver): (b: FunctionButton)
    ensures b.enabled <==> l.target.Some?
    ensures showMixedValue ==> b.content == MixedValue
    ensures !showMixedValue ==> b.content == Caption(FunctionLabel(l, valid, resolve))
  {
    FunctionButton(l.target.Some?,
      if showMixedValue then MixedValue else Caption(FunctionLabel(l, valid, resolve)))
  }

  /**
   Outside the mixed-value case the button reads "No Function" exactly when it
   is greyed out or the listener has no method name; an enabled button with a
   method always names a function, found or missing.
   */
  lemma ButtonShowsNoFunctionIff(l: Listener, valid: Validity, resolve: TypeResolver)
    ensures var b := FunctionButtonFor(l, false, valid, resolve);
            b.content == Caption(NoFunctionLabel) <==> !b.enabled || l.methodName == ""
  {
    NoFunctionLabelIff(l, valid, resolve);
  }

  /**
   One frame's edit of the target field. `picked` is what the object field
   reports through the editor's change check: `None` when the user made no
   change, `Some(t)` when the user assigned `t` (possibly the same object
   again, or null as `Some(None)`). Any assignment clears the method name; the
   stored mode and argument type are kept.
   */
  function EditTarget(l: Listener, picked: Option<Option<ObjectRef>>): (l': Listener)
    ensures picked.None? ==> l' == l
    ensures picked.Some? ==> l'.target == picked.value && l'.methodName == ""
    ensures l'.storedMode == l.storedMode && l'.objectArgumentTypeName == l.objectArgumentTypeName
  {
    match picked
    case None => l
    case Some(t) => l.(target := t, methodName := "")
  }

  /**
   After any assignment to the target field — another object, even one of the
   same type, or the same object again — the row falls back to "No Function",
   an effective `Void` mode and no argument editor, whatever mode was stored.
   */
  lemma RetargetShowsNoFunction(l: Listener, t: Option<ObjectRef>, valid: Validity, resolve: TypeResolver)
    ensures EffectiveMode(EditTarget(l, Some(t))) == Void
    ensures FunctionLabel(EditTarget(l, Some(t)), valid, resolve) == NoFunctionLabel
    ensures ArgumentEditorFor(EditTarget(l, Some(t)), resolve) == NoEditor
  {
  }

  /** An argument editor is only ever drawn for a listener that names a function. */
  lemma EditorNeedsFunction(l: Listener, resolve: TypeResolver)
    ensures ArgumentEditorFor(l, resolve) != NoEditor ==> HasFunction(l) && CarriesArgument(l.storedMode)
  {
  }
}

=== FILE: popup_menu.dfy ===
/**
 The function menu `BuildPopupList` opens from a listener row: a "No Function"
 item, then one submenu for the target and, when the target is a game object,
 one submenu per component and per engine object held in a component's public
 fields. Components whose type names clash are told apart by full name and a
 running index.
 */
module PopupMenu {
  import opened Host
  import opened Text
  import opened Counting
  import opened Runs

  function Types(cs: seq<Component>): (ts: seq<TypeInfo>)
    ensures |ts| == |cs|
    ensures forall i :: 0 <= i < |cs| ==> ts[i] == cs[i].componentType
  {
    seq(|cs|, i requires 0 <= i < |cs| => cs[i].componentType)
  }

  function Names(ts: seq<TypeInfo>): (ns: seq<string>)
    ensures |ns| == |ts|
    ensures forall i :: 0 <= i < |ts| ==> ns[i] == ts[i].name
  {
    seq(|ts|, i requires 0 <= i < |ts| => ts[i].name)
  }

  function FullNames(ts: seq<TypeInfo>): (fs: seq<string>)
    ensures |fs| == |ts|
    ensures forall i :: 0 <= i < |ts| ==> fs[i] == ts[i].fullName
  {
    seq(|ts|, i requires 0 <= i < |ts| => ts[i].fullName)
  }

  // ---------------------------------------------------------------------------
  // Pass 1: how often each short type name is used

  /**
   The short-name dictionary after the first pass: seeded with the root's type
   name at 0, then each component's name is entered at 0 the first time and
   bumped on every later sighting. A name is marked as clashing (value above 0)
   exactly when two components share it or it is the root's own name.
   */
  function CountPass(rootName: string, names: seq<string>): (dup: map<string, nat>)
    ensures dup.Keys == {rootName} + (set n | n in names)
    ensures forall n :: n in dup ==>
              dup[n] == if n == rootName then Count(names, n) else Count(names, n) - 1
    ensures forall n :: n in names ==> (dup[n] > 0 <==> Count(names, n) >= 2 || n == rootName)
    decreases |names|
  {
    if |names| == 0 then map[rootName := 0]
    else
      var dup := CountPass(rootName, names[..|names| - 1]);
      var n := names[|names| - 1];
      assert names == names[..|names| - 1] + [n];
      dup[n := if n in dup then dup[n] + 1 else 0]
  }

  // ---------------------------------------------------------------------------
  // Pass 2: a label per component

  /** A full type name followed by a disambiguating index, as in "Ns.T (2)". */
  function Indexed(fullName: string, k: nat): string {
    fullName + " (" + NatToString(k) + ")"
  }

  /** Every short name the second pass will look up is in the dictionary. */
  predicate NamesKnown(dup: map<string, nat>, ts: seq<TypeInfo>) {
    forall i :: 0 <= i < |ts| ==> ts[i].name in dup
  }

  /**
   State of the second pass: how many components of each full name have been
   labelled under that name so far, and the labels given so far.
   */
  datatype Naming = Naming(seen: map<string, nat>, labels: seq<string>)

  /** Labels one component and records its full name. */
  function NameStep(dup: map<string, nat>, st: Naming, t: TypeInfo): (st': Naming)
    requires t.name in dup
    ensures |st'.labels| == |st.labels| + 1 && st'.labels[..|st.labels|] == st.labels
  {
    var clash := dup[t.name] > 0;
    var index := if clash && t.fullName in st.seen then st.seen[t.fullName] else 0;
    var given :=
      if !clash then t.name
      else if t.fullName in st.seen then Indexed(t.fullName, index)
      else t.fullName;
    Naming(st.seen[t.fullName := index + 1], st.labels + [given])
  }

  /** A step records the component's full name and leaves every other full name's counter alone. */
  lemma NameStepCounters(dup: map<string, nat>, st: Naming, t: TypeInfo)
    requires t.name in dup
    ensures NameStep(dup, st, t).seen.Keys == st.seen.Keys + {t.fullName}
    ensures NameStep(dup, st, t).seen[t.fullName] >= 1
    ensures forall f :: f in st.seen && f != t.fullName ==> NameStep(dup, st, t).seen[f] == st.seen[f]
  {
  }

  /**
   The second pass over components in order. A component whose short name does
   not clash keeps it; one whose name clashes is labelled by its full name,
   possibly followed by an index of at least 1.
   */
  function NamePass(dup: map<string, nat>, ts: seq<TypeInfo>): (st: Naming)
    requires NamesKnown(dup, ts)
    ensures |st.labels| == |ts|
    ensures forall i :: 0 <= i < |ts| && dup[ts[i].name] == 0 ==> st.labels[i] == ts[i].name
    ensures forall i :: 0 <= i < |ts| && dup[ts[i].name] > 0 ==>
              st.labels[i] == ts[i].fullName ||
              exists k: nat :: 1 <= k && st.labels[i] == Indexed(ts[i].fullName, k)
    ensures forall f :: f in st.seen ==> st.seen[f] >= 1
    decreases |ts|
  {
    if |ts| == 0 then Naming(map[], [])
    else
      var prev := ts[..|ts| - 1];
      NameStep(dup, NamePass(dup, prev), ts[|ts| - 1])
  }

  /** The labels the menu gives the components of a game object whose type is named `rootName`. */
  function ComponentLabels(rootName: string, ts: seq<TypeInfo>): (labels: seq<string>)
    ensures |labels| == |ts|
    ensures forall i :: 0 <= i < |ts| && !Clashes(rootName, ts, ts[i].name) ==> labels[i] == ts[i].name
    ensures forall i :: 0 <= i < |ts| && Clashes(rootName, ts, ts[i].name) ==>
              labels[i] == ts[i].fullName ||
              exists k: nat :: 1 <= k && labels[i] == Indexed(ts[i].fullName, k)
  {
    var dup := CountPass(rootName, Names(ts));
    assert forall i :: 0 <= i < |ts| ==> Names(ts)[i] in Names(ts);
    NamePass(dup, ts).labels
  }

  // ---------------------------------------------------------------------------
  // Reference labelling

  /** A short name clashes when two components carry it or the root carries it. */
  predicate Clashes(rootName: string, ts: seq<TypeInfo>, n: string) {
    Count(Names(ts), n) >= 2 || n == rootName
  }

  /**
   The label the naming scheme promises the i-th component: its short name when
   that does not clash; otherwise its full name for the first component with
   that full name and "FullName (k)" for the one with k earlier namesakes.
   */
  function RefLabel(rootName: string, ts: seq<TypeInfo>, i: nat): string
    requires i < |ts|
  {
    var t := ts[i];
    if !Clashes(rootName, ts, t.name) then t.name
    else
      var k := Count(FullNames(ts)[..i], t.fullName);
      if k == 0 then t.fullName else Indexed(t.fullName, k)
  }

  /** Components of one full name share one short name (true of runtime types). */
  predicate FullNameFixesName(ts: seq<TypeInfo>) {
    forall i, j :: 0 <= i < |ts| && 0 <= j < |ts| && ts[i].fullName == ts[j].fullName ==>
      ts[i].name == ts[j].name
  }

  /**
   The shape runtime type names have: no spaces, a full name determines the
   short name, and a short name equals a full name only for a type outside any
   namespace, whose short name then is that full name.
   */
  predicate WellFormedTypes(ts: seq<TypeInfo>) {
    && FullNameFixesName(ts)
    && (forall i :: 0 <= i < |ts| ==> ' ' !in ts[i].name && ' ' !in ts[i].fullName)
    && (forall i, j :: 0 <= i < |ts| && 0 <= j < |ts| && ts[i].name == ts[j].fullName ==>
          ts[i].name == ts[j].name)
  }

  /** The full-name counter holds the number of components of each full name among the first `j`. */
  ghost predicate SeenCounts(ts: seq<TypeInfo>, seen: map<string, nat>, j: nat)
    requires j <= |ts|
  {
    && (forall f :: f in seen <==> f in FullNames(ts)[..j])
    && (forall f :: f in seen ==> seen[f] == Count(FullNames(ts)[..j], f))
  }

  /** The labels given so far are the reference labels of the first `j` components. */
  predicate LabelsMatch(rootName: string, ts: seq<TypeInfo>, labels: seq<string>, j: nat)
    requires j <= |ts|
  {
    |labels| == j && forall i :: 0 <= i < j ==> labels[i] == RefLabel(rootName, ts, i)
  }

  /** Invariant of the second pass after `j` components. */
  ghost predicate PassInvariant(rootName: string, ts: seq<TypeInfo>, st: Naming, j: nat)
    requires j <= |ts|
  {
    SeenCounts(ts, st.seen, j) && LabelsMatch(rootName, ts, st.labels, j)
  }

  /**
   The index the second pass uses for component `j` is the number of earlier
   components of its full name, given that the short-name dictionary marks
   clashes faithfully and that a component whose short name does not clash is
   the first of its full name.
   */
  lemma NameStepIndex(rootName: string, ts: seq<TypeInfo>, dup: map<string, nat>, st: Naming, j: nat)
    requires j < |ts|
    requires ts[j].name in dup
    requires dup[ts[j].name] > 0 <==> Clashes(rootName, ts, ts[j].name)
    requires !Clashes(rootName, ts, ts[j].name) ==> ts[j].fullName !in FullNames(ts)[..j]
    requires SeenCounts(ts, st.seen, j)
    ensures NameStep(dup, st, ts[j]).seen[ts[j].fullName] == Count(FullNames(ts)[..j], ts[j].fullName) + 1
    ensures NameStep(dup, st, ts[j]).labels == st.labels + [RefLabel(rootName, ts, j)]
  {
  }

  /** Counting one more component updates only its own full name. */
  lemma SeenCountsStep(ts: seq<TypeInfo>, seen: map<string, nat>, j: nat)
    requires j < |ts|
    requires SeenCounts(ts, seen, j)
    ensures SeenCounts(ts, seen[ts[j].fullName := Count(FullNames(ts)[..j], ts[j].fullName) + 1], j + 1)
  {
    var fs := FullNames(ts);
    var f := ts[j].fullName;
    assert fs[..j + 1] == fs[..j] + [f];
    assert fs[..j + 1][..j] == fs[..j];
    assert forall g :: Count(fs[..j + 1], g) == Count(fs[..j], g) + (if g == f then 1 else 0);
  }

  /** Labelling the next component keeps the invariant. */
  lemma NameStepKeepsInvariant(rootName: string, ts: seq<TypeInfo>, dup: map<string, nat>, st: Naming, j: nat)
    requires j < |ts|
    requires ts[j].name in dup
    requires dup[ts[j].name] > 0 <==> Clashes(rootName, ts, ts[j].name)
    requires !Clashes(rootName, ts, ts[j].name) ==> ts[j].fullName !in FullNames(ts)[..j]
    requires PassInvariant(rootName, ts, st, j)
    ensures PassInvariant(rootName, ts, NameStep(dup, st, ts[j]), j + 1)
  {
    NameStepIndex(rootName, ts, dup, st, j);
    SeenCountsStep(ts, st.seen, j);
    var st' := NameStep(dup, st, ts[j]);
    assert st'.seen == st.seen[ts[j].fullName := Count(FullNames(ts)[..j], ts[j].fullName) + 1];
    assert forall i :: 0 <= i < j ==> st'.labels[i] == st.labels[i];
  }

  /** A component whose short name is used once is the only component of its full name. */
  lemma UnclashedIsFirstOfFullName(rootName: string, ts: seq<TypeInfo>, j: nat)
    requires j < |ts|
    requires FullNameFixesName(ts)
    requires !Clashes(rootName, ts, ts[j].name)
    ensures ts[j].fullName !in FullNames(ts)[..j]
  {
    if ts[j].fullName in FullNames(ts)[..j] {
      var i :| 0 <= i < j && FullNames(ts)[..j][i] == ts[j].fullName;
      assert ts[i].fullName == ts[j].fullName;
      CountTwoPositions(Names(ts), i, j, ts[j].name);
    }
  }

  /** The short-name dictionary knows every component's name and marks exactly the clashing ones. */
  ghost predicate MarksClashes(rootName: string, ts: seq<TypeInfo>, dup: map<string, nat>) {
    forall i :: 0 <= i < |ts| ==>
      ts[i].name in dup && (dup[ts[i].name] > 0 <==> Clashes(rootName, ts, ts[i].name))
  }

  /** The first pass marks clashes faithfully. */
  lemma CountPassMarksClashes(rootName: string, ts: seq<TypeInfo>)
    ensures MarksClashes(rootName, ts, CountPass(rootName, Names(ts)))
  {
  }

  /** The pass over the first `j` components is the pass over `j - 1` followed by one step. */
  lemma NamePassUnfold(rootName: string, ts: seq<TypeInfo>, dup: map<string, nat>, j: nat)
    requires 0 < j <= |ts|
    requires MarksClashes(rootName, ts, dup)
    ensures NamesKnown(dup, ts[..j - 1]) && NamesKnown(dup, ts[..j])
    ensures NamePass(dup, ts[..j]) == NameStep(dup, NamePass(dup, ts[..j - 1]), ts[j - 1])
  {
    assert ts[..j][..j - 1] == ts[..j - 1];
    assert ts[..j][j - 1] == ts[j - 1];
  }

  /** The second pass keeps the invariant from the first component to the last. */
  lemma {:induction false} NamePassInvariant(rootName: string, ts: seq<TypeInfo>, dup: map<string, nat>, j: nat)
    requires j <= |ts|
    requires FullNameFixesName(ts)
    requires MarksClashes(rootName, ts, dup)
    ensures NamesKnown(dup, ts[..j])
    ensures PassInvariant(rootName, ts, NamePass(dup, ts[..j]), j)
  {
    if j == 0 {
      assert NamesKnown(dup, ts[..j]);
      assert FullNames(ts)[..0] == [];
    } else {
      NamePassInvariant(rootName, ts, dup, j - 1);
      var t := ts[j - 1];
      assert t.name in dup && (dup[t.name] > 0 <==> Clashes(rootName, ts, t.name));
      if !Clashes(rootName, ts, t.name) {
        UnclashedIsFirstOfFullName(rootName, ts, j - 1);
      }
      NameStepKeepsInvariant(rootName, ts, dup, NamePass(dup, ts[..j - 1]), j - 1);
      NamePassUnfold(rootName, ts, dup, j);
    }
  }

  /** Under the shape of runtime type names, the second pass produces the reference labelling. */
  lemma ComponentLabelsMatchReference(rootName: string, ts: seq<TypeInfo>, i: nat)
    requires i < |ts|
    requires FullNameFixesName(ts)
    ensures ComponentLabels(rootName, ts)[i] == RefLabel(rootName, ts, i)
  {
    CountPassMarksClashes(rootName, ts);
    NamePassInvariant(rootName, ts, CountPass(rootName, Names(ts)), |ts|);
    assert ts[..|ts|] == ts;
  }

  // ---------------------------------------------------------------------------
  // Distinctness

  /** "F (k)" is read back unambiguously: its full name and its index. */
  lemma IndexedInjective(f: string, k: nat, f': string, k': nat)
    requires ' ' !in f && ' ' !in f'
    requires Indexed(f, k) == Indexed(f', k')
    ensures f == f' && k == k'
  {
    var s, s' := NatToString(k), NatToString(k');
    assert Indexed(f, k) == f + " " + ("(" + s + ")");
    assert Indexed(f', k') == f' + " " + ("(" + s' + ")");
    SplitAtFirstSpace(f, "(" + s + ")", f', "(" + s' + ")");
    assert s == ("(" + s + ")")[1..|s| + 1];
    assert s' == ("(" + s' + ")")[1..|s'| + 1];
    NatToStringInjective(k, k');
  }

  /** An indexed label contains a space. */
  lemma IndexedHasSpace(f: string, k: nat)
    ensures ' ' in Indexed(f, k)
  {
  }

  /**
   Under the shape of runtime type names, no two components get the same
   reference label.
   */
  lemma RefLabelsDistinct(rootName: string, ts: seq<TypeInfo>, i: nat, j: nat)
    requires i < |ts| && j < |ts| && i != j
    requires WellFormedTypes(ts)
    ensures RefLabel(rootName, ts, i) != RefLabel(rootName, ts, j)
  {
    var a, b := ts[i], ts[j];
    var ns, fs := Names(ts), FullNames(ts);
    var ca, cb := Clashes(rootName, ts, a.name), Clashes(rootName, ts, b.name);
    if !ca && !cb {
      if a.name == b.name {
        CountTwoPositions(ns, i, j, a.name);
      }
    } else if !ca || !cb {
      var u, r := if !ca then i else j, if !ca then j else i;
      UniqueNeverClashing(rootName, ts, u, r);
    } else {
      var ki, kj := Count(fs[..i], a.fullName), Count(fs[..j], b.fullName);
      if ki > 0 { IndexedHasSpace(a.fullName, ki); }
      if kj > 0 { IndexedHasSpace(b.fullName, kj); }
      if a.fullName == b.fullName {
        if i < j {
          CountPastOccurrence(fs, i, j, a.fullName);
        } else {
          CountPastOccurrence(fs, j, i, a.fullName);
        }
        if ki > 0 && kj > 0 && Indexed(a.fullName, ki) == Indexed(b.fullName, kj) {
          IndexedInjective(a.fullName, ki, b.fullName, kj);
        }
      } else if ki > 0 && kj > 0 && Indexed(a.fullName, ki) == Indexed(b.fullName, kj) {
        IndexedInjective(a.fullName, ki, b.fullName, kj);
      }
    }
  }

  /** A component labelled by its own (non-clashing) short name never shares a clashing one's label. */
  lemma UniqueNeverClashing(rootName: string, ts: seq<TypeInfo>, u: nat, r: nat)
    requires u < |ts| && r < |ts| && u != r
    requires WellFormedTypes(ts)
    requires !Clashes(rootName, ts, ts[u].name) && Clashes(rootName, ts, ts[r].name)
    ensures RefLabel(rootName, ts, u) != RefLabel(rootName, ts, r)
  {
  }

  /**
   The components of a game object get pairwise different menu labels, as the
   full-name indexing is meant to ensure.
   */
  lemma ComponentLabelsDistinct(rootName: string, ts: seq<TypeInfo>, i: nat, j: nat)
    requires i < |ts| && j < |ts| && i != j
    requires WellFormedTypes(ts)
    ensures ComponentLabels(rootName, ts)[i] != ComponentLabels(rootName, ts)[j]
  {
    ComponentLabelsMatchReference(rootName, ts, i);
    ComponentLabelsMatchReference(rootName, ts, j);
    RefLabelsDistinct(rootName, ts, i, j);
  }

  /**
   No component is labelled like the root entry, provided no component type's
   full name is the root's short name: seeding the root's name makes every
   component of that short name fall back to its full name.
   */
  lemma ComponentLabelNotRoot(rootName: string, ts: seq<TypeInfo>, i: nat)
    requires i < |ts|
    requires ' ' !in rootName
    requires FullNameFixesName(ts)
    requires forall k :: 0 <= k < |ts| ==> ts[k].fullName != rootName
    ensures ComponentLabels(rootName, ts)[i] != rootName
  {
    ComponentLabelsMatchReference(rootName, ts, i);
    var k := Count(FullNames(ts)[..i], ts[i].fullName);
    if k > 0 {
      IndexedHasSpace(ts[i].fullName, k);
    }
  }

  // ---------------------------------------------------------------------------
  // The menu

  /** One entry of the generic menu. */
  datatype MenuEntry =
    | NoFunctionItem(checked: bool)
    | Separator
      /** The block of functions of one object, under the given title. */
    | TypePopup(title: string, objectType: TypeInfo)

  /** Title of the block for an object held in a field of the component titled `owner`. */
  function FieldTitle(owner: string, t: TypeInfo): string {
    owner + " -  " + t.fullName
  }

  /**
   One block per field that holds a live engine object, in field order; fields
   of other types, null fields and fields that throw when read are skipped.
   */
  function FieldEntries(owner: string, fields: seq<FieldValue>): (es: seq<MenuEntry>)
    ensures |es| <= |fields|
    ensures forall e :: e in es ==> e.TypePopup? && e == TypePopup(FieldTitle(owner, e.objectType), e.objectType)
    ensures forall f :: f in fields && f.ObjectValue? ==>
              TypePopup(FieldTitle(owner, f.runtimeType), f.runtimeType) in es
    ensures forall e :: e in es ==> ObjectValue(e.objectType) in fields
    decreases |fields|
  {
    if |fields| == 0 then []
    else
      var rest := FieldEntries(owner, fields[1..]);
      assert forall f :: f in fields ==> f == fields[0] || f in fields[1..];
      match fields[0]
      case ObjectValue(t) => [TypePopup(FieldTitle(owner, t), t)] + rest
      case _ => rest
  }

  /**
   A field block for objects of type `t` appears exactly as often as fields
   holding a live object of type `t`: one block per such field, no more.
   */
  lemma {:induction false} FieldEntriesCount(owner: string, fields: seq<FieldValue>, t: TypeInfo)
    ensures Count(FieldEntries(owner, fields), TypePopup(FieldTitle(owner, t), t)) == Count(fields, ObjectValue(t))
    decreases |fields|
  {
    if |fields| > 0 {
      var x := TypePopup(FieldTitle(owner, t), t);
      var rest := FieldEntries(owner, fields[1..]);
      FieldEntriesCount(owner, fields[1..], t);
      assert fields == [fields[0]] + fields[1..];
      CountAppend([fields[0]], fields[1..], ObjectValue(t));
      assert Count([fields[0]], ObjectValue(t)) == if fields[0] == ObjectValue(t) then 1 else 0 by {
        assert [fields[0]][..0] == [];
      }
      match fields[0]
      case ObjectValue(u) =>
        var head := TypePopup(FieldTitle(owner, u), u);
        CountAppend([head], rest, x);
        assert [head][..0] == [];
      case _ =>
    }
  }

  /**
   Each component's block, under its label, followed by the blocks for its
   fields; nothing else.
   */
  function ComponentEntries(cs: seq<Component>, labels: seq<string>): (es: seq<MenuEntry>)
    requires |labels| == |cs|
    ensures forall i :: 0 <= i < |cs| ==> TypePopup(labels[i], cs[i].componentType) in es
    ensures forall i, e :: 0 <= i < |cs| && e in FieldEntries(labels[i], cs[i].fields) ==> e in es
    ensures forall e :: e in es ==> e.TypePopup?
    decreases |cs|
  {
    if |cs| == 0 then []
    else
      var rest := ComponentEntries(cs[1..], labels[1..]);
      assert forall i :: 1 <= i < |cs| ==> cs[1..][i - 1] == cs[i] && labels[1..][i - 1] == labels[i];
      var own := [TypePopup(labels[0], cs[0].componentType)] + FieldEntries(labels[0], cs[0].fields);
      assert forall e :: e in own + rest <==> e in own || e in rest;
      own + rest
  }

  /**
   Nothing but component blocks and field blocks is listed: every entry is some
   component's block or one of that component's field blocks.
   */
  lemma {:induction false} ComponentEntriesOnly(cs: seq<Component>, labels: seq<string>)
    requires |labels| == |cs|
    ensures forall e :: e in ComponentEntries(cs, labels) ==>
              (exists i :: 0 <= i < |cs| &&
                 (e == TypePopup(labels[i], cs[i].componentType) || e in FieldEntries(labels[i], cs[i].fields)))
    decreases |cs|
  {
    if |cs| > 0 {
      ComponentEntriesOnly(cs[1..], labels[1..]);
      var own := [TypePopup(labels[0], cs[0].componentType)] + FieldEntries(labels[0], cs[0].fields);
      var rest := ComponentEntries(cs[1..], labels[1..]);
      assert ComponentEntries(cs, labels) == own + rest;
      forall e | e in own + rest
        ensures exists i :: 0 <= i < |cs| &&
                  (e == TypePopup(labels[i], cs[i].componentType) || e in FieldEntries(labels[i], cs[i].fields))
      {
        if e in own {
          assert e == TypePopup(labels[0], cs[0].componentType) || e in FieldEntries(labels[0], cs[0].fields);
        } else {
          assert e in rest;
          var j :| 0 <= j < |cs| - 1 &&
            (e == TypePopup(labels[1..][j], cs[1..][j].componentType) || e in FieldEntries(labels[1..][j], cs[1..][j].fields));
          assert cs[1..][j] == cs[j + 1] && labels[1..][j] == labels[j + 1];
        }
      }
    }
  }

  /** The stretch a component contributes: its own block, then its field blocks. */
  function Stretch(c: Component, title: string): seq<MenuEntry> {
    [TypePopup(title, c.componentType)] + FieldEntries(title, c.fields)
  }

  /** The components' stretches, in component order. */
  function Stretches(cs: seq<Component>, labels: seq<string>): (ss: seq<seq<MenuEntry>>)
    requires |labels| == |cs|
    ensures |ss| == |cs| && forall i :: 0 <= i < |cs| ==> ss[i] == Stretch(cs[i], labels[i])
  {
    seq(|cs|, i requires 0 <= i < |cs| => Stretch(cs[i], labels[i]))
  }

  /**
   The list is exactly the components' stretches laid end to end in component
   order: each component's block directly followed by its field blocks, then
   the next component's.
   */
  lemma {:induction false} ComponentEntriesInOrder(cs: seq<Component>, labels: seq<string>)
    requires |labels| == |cs|
    ensures ComponentEntries(cs, labels) == Flatten(Stretches(cs, labels))
    decreases |cs|
  {
    if |cs| > 0 {
      ComponentEntriesInOrder(cs[1..], labels[1..]);
      var ss := Stretches(cs, labels);
      assert ss[1..] == Stretches(cs[1..], labels[1..]);
      assert Flatten(ss) == ss[0] + Flatten(ss[1..]);
    }
  }

  /**
   Where component `i`'s entries sit: its block at `Offset(ss, i)`, and its
   `k`-th field block at `Offset(ss, i) + 1 + k`, where `Offset` is the total
   length of the earlier components' stretches.
   */
  lemma ComponentStretchAt(cs: seq<Component>, labels: seq<string>, i: nat, k: nat)
    requires |labels| == |cs| && i < |cs| && k <= |FieldEntries(labels[i], cs[i].fields)|
    ensures var p := Offset(Stretches(cs, labels), i);
            p + k < |ComponentEntries(cs, labels)| &&
            ComponentEntries(cs, labels)[p + k] ==
              if k == 0 then TypePopup(labels[i], cs[i].componentType)
              else FieldEntries(labels[i], cs[i].fields)[k - 1]
  {
    var ss := Stretches(cs, labels);
    ComponentEntriesInOrder(cs, labels);
    FlattenHeadedIndex(ss, i, k, TypePopup(labels[i], cs[i].componentType), FieldEntries(labels[i], cs[i].fields));
  }

  /** The blocks for the components of a game object, each under the label the naming scheme gives it. */
  function GameObjectEntries(cs: seq<Component>): (es: seq<MenuEntry>)
    ensures forall e :: e in es ==> e.TypePopup?
  {
    ComponentEntries(cs, ComponentLabels(GameObjectType.name, Types(cs)))
  }

  /**
   Every component of a game object has its block in the menu, under its own
   label, together with the blocks for the objects held in its fields.
   */
  lemma GameObjectEntriesListComponents(cs: seq<Component>, i: nat)
    requires i < |cs|
    ensures TypePopup(ComponentLabels(GameObjectType.name, Types(cs))[i], cs[i].componentType)
              in GameObjectEntries(cs)
    ensures forall e :: e in FieldEntries(ComponentLabels(GameObjectType.name, Types(cs))[i], cs[i].fields) ==>
              e in GameObjectEntries(cs)
  {
  }

  /** Everything below the "No Function" item: nothing without a target. */
  function TargetEntries(target: Option<Root>): (es: seq<MenuEntry>)
    ensures |es| == 0 <==> target.None?
    ensures forall e :: e in es ==> !e.NoFunctionItem?
    ensures target.Some? ==>
              2 <= |es| && es[0] == Separator && es[1] == TypePopup(target.value.Type().name, target.value.Type())
    ensures target.Some? && target.value.GameObject? ==>
              forall e :: e in GameObjectEntries(target.value.components) ==> e in es
    ensures target.Some? && target.value.OtherObject? ==>
              es == [Separator, TypePopup(target.value.Type().name, target.value.Type())]
  {
    if target.None? then []
    else
      var root := target.value;
      var head := [Separator, TypePopup(root.Type().name, root.Type())];
      if root.OtherObject? then head
      else
        var body := GameObjectEntries(root.components);
        assert forall e :: e in head + body <==> e in head || e in body;
        head + body
  }

  /**
   The function menu for a listener whose method is `methodName` and whose
   target (a component already replaced by its game object) is `target`.
   */
  function BuildPopupList(target: Option<Root>, methodName: string): (menu: seq<MenuEntry>)
    ensures 1 <= |menu| && menu[0] == NoFunctionItem(methodName == "")
    ensures |menu| == 1 <==> target.None?
    ensures forall e :: e in menu[1..] ==> !e.NoFunctionItem?
    ensures target.Some? ==>
              3 <= |menu| && menu[1] == Separator && menu[2] == TypePopup(target.value.Type().name, target.value.Type())
    ensures target.Some? && target.value.GameObject? ==>
              forall e :: e in GameObjectEntries(target.value.components) ==> e in menu
    ensures target.Some? && target.value.OtherObject? ==>
              menu == [NoFunctionItem(methodName == ""), Separator, TypePopup(target.value.Type().name, target.value.Type())]
  {
    var rest := TargetEntries(target);
    var menu := [NoFunctionItem(methodName == "")] + rest;
    assert menu[1..] == rest;
    menu
  }

  /** Blocks of the components, under whatever labels, placed after a fixed head. */
  lemma ComponentsAfterHead(cs: seq<Component>, labels: seq<string>, head: seq<MenuEntry>)
    requires |labels| == |cs|
    ensures var menu := head + ComponentEntries(cs, labels);
            (forall i :: 0 <= i < |cs| ==> TypePopup(labels[i], cs[i].componentType) in menu) &&
            (forall i, e :: 0 <= i < |cs| && e in FieldEntries(labels[i], cs[i].fields) ==> e in menu) &&
            (forall e :: e in menu ==>
               e in head ||
               (exists i :: 0 <= i < |cs| &&
                  (e == TypePopup(labels[i], cs[i].componentType) || e in FieldEntries(labels[i], cs[i].fields))))
  {
    var body := ComponentEntries(cs, labels);
    ComponentEntriesOnly(cs, labels);
    assert forall e :: e in head + body <==> e in head || e in body;
  }

  /** Putting one entry before a two-entry head and a body. */
  lemma PrependTwo<T>(x: T, y: T, z: T, body: seq<T>)
    ensures [x] + ([y, z] + body) == [x, y, z] + body
  {
    assert [x] + [y, z] == [x, y, z];
  }

  /** The menu of a game object is the fixed head followed by the component blocks. */
  lemma GameObjectPopupList(cs: seq<Component>, methodName: string)
    ensures BuildPopupList(Some(GameObject(cs)), methodName) ==
            [NoFunctionItem(methodName == ""), Separator, TypePopup(GameObjectType.name, GameObjectType)]
            + ComponentEntries(cs, ComponentLabels(GameObjectType.name, Types(cs)))
  {
    var rest := TargetEntries(Some(GameObject(cs)));
    var body := GameObjectEntries(cs);
    assert body == ComponentEntries(cs, ComponentLabels(GameObjectType.name, Types(cs)));
    assert rest == [Separator, TypePopup(GameObjectType.name, GameObjectType)] + body;
    assert BuildPopupList(Some(GameObject(cs)), methodName) == [NoFunctionItem(methodName == "")] + rest;
    PrependTwo(NoFunctionItem(methodName == ""), Separator, TypePopup(GameObjectType.name, GameObjectType), body);
  }

  /**
   The menu of a game object: its component blocks and their field blocks all
   appear, and every entry is the "No Function" item, the separator, the game
   object's own block, or one of those.
   */
  lemma GameObjectMenu(cs: seq<Component>, methodName: string)
    ensures var labels := ComponentLabels(GameObjectType.name, Types(cs));
            forall i :: 0 <= i < |cs| ==>
              TypePopup(labels[i], cs[i].componentType) in BuildPopupList(Some(GameObject(cs)), methodName)
    ensures var labels := ComponentLabels(GameObjectType.name, Types(cs));
            forall i, e :: 0 <= i < |cs| && e in FieldEntries(labels[i], cs[i].fields) ==>
              e in BuildPopupList(Some(GameObject(cs)), methodName)
    ensures var labels := ComponentLabels(GameObjectType.name, Types(cs));
            forall e :: e in BuildPopupList(Some(GameObject(cs)), methodName) ==>
              e in [NoFunctionItem(methodName == ""), Separator, TypePopup(GameObjectType.name, GameObjectType)] ||
              (exists i :: 0 <= i < |cs| &&
                 (e == TypePopup(labels[i], cs[i].componentType) || e in FieldEntries(labels[i], cs[i].fields)))
  {
    GameObjectPopupList(cs, methodName);
    ComponentsAfterHead(cs, ComponentLabels(GameObjectType.name, Types(cs)), [NoFunctionItem(methodName == ""), Separator, TypePopup(GameObjectType.name, GameObjectType)]);
  }
}

=== FILE: runs.dfy ===
/**
 Sequences laid end to end: where each piece lands in the concatenation.
 The menu is built by appending one component's entries after another's, and
 these facts say where each component's entries end up.
 */
module Runs {

  /** The pieces of `ss` concatenated in order. */
  function Flatten<T>(ss: seq<seq<T>>): seq<T>
    decreases |ss|
  {
    if |ss| == 0 then [] else ss[0] + Flatten(ss[1..])
  }

  /** Position in `Flatten(ss)` at which piece `i` starts: the total length of the pieces before it. */
  function Offset<T>(ss: seq<seq<T>>, i: nat): nat
    requires i <= |ss|
    decreases i
  {
    if i == 0 then 0 else |ss[0]| + Offset(ss[1..], i - 1)
  }

  /** Piece `i` starts right where piece `i - 1` ends. */
  lemma {:induction false} OffsetStep<T>(ss: seq<seq<T>>, i: nat)
    requires i < |ss|
    ensures Offset(ss, i + 1) == Offset(ss, i) + |ss[i]|
    decreases i
  {
    if i > 0 {
      OffsetStep(ss[1..], i - 1);
    }
  }

  /** The concatenation is exactly as long as all pieces together. */
  lemma {:induction false} FlattenLength<T>(ss: seq<seq<T>>)
    ensures |Flatten(ss)| == Offset(ss, |ss|)
    decreases |ss|
  {
    if |ss| > 0 {
      FlattenLength(ss[1..]);
    }
  }

  /** The `k`-th element of piece `i` is found at `Offset(ss, i) + k` in the concatenation. */
  lemma {:induction false} FlattenIndex<T>(ss: seq<seq<T>>, i: nat, k: nat)
    requires i < |ss| && k < |ss[i]|
    ensures Offset(ss, i) + k < |Flatten(ss)|
    ensures Flatten(ss)[Offset(ss, i) + k] == ss[i][k]
    decreases i
  {
    FlattenLength(ss);
    OffsetStep(ss, i);
    OffsetMonotone(ss, i + 1, |ss|);
    if i > 0 {
      FlattenIndex(ss[1..], i - 1, k);
      assert ss[1..][i - 1] == ss[i];
    }
  }

  /** Offsets never decrease. */
  lemma {:induction false} OffsetMonotone<T>(ss: seq<seq<T>>, i: nat, j: nat)
    requires i <= j <= |ss|
    ensures Offset(ss, i) <= Offset(ss, j)
    decreases j
  {
    if i < j {
      OffsetMonotone(ss, i, j - 1);
      OffsetStep(ss, j - 1);
    }
  }

  /** For a piece made of a head `x` and a run `fs`: where the head and each element of the run land. */
  lemma FlattenHeadedIndex<T>(ss: seq<seq<T>>, i: nat, k: nat, x: T, fs: seq<T>)
    requires i < |ss| && ss[i] == [x] + fs && k <= |fs|
    ensures Offset(ss, i) + k < |Flatten(ss)|
    ensures Flatten(ss)[Offset(ss, i) + k] == if k == 0 then x else fs[k - 1]
  {
    FlattenIndex(ss, i, k);
  }
}

=== FILE: text.dfy ===
/**
 Small string facts the inspector's labels rely on: prefixes, the decimal
 rendering of a non-negative `int` (as C# string interpolation writes it), and
 how a label that contains a space splits back into its parts.
 */
module Text {

  /** True iff `s` begins with `p` (ordinal comparison). */
  predicate StartsWith(s: string, p: string) {
    |p| <= |s| && s[..|p|] == p
  }

  predicate IsDigit(c: char) {
    '0' <= c <= '9'
  }

  /** The decimal digit for `d`. */
  function Digit(d: nat): (c: char)
    requires d < 10
    ensures IsDigit(c)
    ensures c as int - '0' as int == d
  {
    ('0' as int + d) as char
  }

  /** Decimal text of `n`, most significant digit first, no leading zeros. */
  function NatToString(n: nat): (s: string)
    ensures 1 <= |s|
    ensures n >= 10 ==> 2 <= |s|
    ensures forall i :: 0 <= i < |s| ==> IsDigit(s[i])
    ensures ' ' !in s
    decreases n
  {
    if n < 10 then [Digit(n)] else NatToString(n / 10) + [Digit(n % 10)]
  }

  /** Different numbers are written differently. */
  lemma {:induction false} NatToStringInjective(a: nat, b: nat)
    requires NatToString(a) == NatToString(b)
    ensures a == b
    decreases a
  {
    if a >= 10 && b >= 10 {
      var sa, sb := NatToString(a), NatToString(b);
      assert sa == NatToString(a / 10) + [Digit(a % 10)];
      assert sb == NatToString(b / 10) + [Digit(b % 10)];
      assert sa[|sa| - 1] == Digit(a % 10);
      assert sb[|sb| - 1] == Digit(b % 10);
      assert sa[..|sa| - 1] == NatToString(a / 10);
      assert sb[..|sb| - 1] == NatToString(b / 10);
      NatToStringInjective(a / 10, b / 10);
    }
  }

  /**
   Two strings that each put a space-free head before a space split at the
   same place: heads and tails agree.
   */
  lemma {:induction false} SplitAtFirstSpace(x: string, y: string, x': string, y': string)
    requires ' ' !in x && ' ' !in x'
    requires x + " " + y == x' + " " + y'
    ensures x == x' && y == y'
  {
    var s := x + " " + y;
    var s' := x' + " " + y';
    assert s[|x|] == ' ';
    assert s'[|x'|] == ' ';
    assert x == s[..|x|];
    assert x' == s'[..|x'|];
    assert y == s[|x| + 1..];
    assert y' == s'[|x'| + 1..];
  }
}
